=== FILE: README.md ===
# Minecraft Music Extractor — asset-resolution pipeline in Dafny

Minecraft keeps its sounds in a content-addressed store. An index file maps each
logical asset name (`minecraft/sounds/music/menu/calm1.ogg`) to a hash. The object
itself lives at `assets/objects/<first two hash characters>/<hash>`. The extractor
works in two phases:

1. It loads every index into a catalog. The catalog keeps the names that the
   user's category selection matches (music, mob sounds, or both).
2. It copies each catalogued object to the output folder under a readable name.
   That name is the asset name without its first two segments, with the remaining
   segments joined by `-`.

This project models that pipeline and the small options menu in front of it:

- `wrappers.dfy`: `Option`.
- `strings.dfy`: the .NET string operations the pipeline uses. These are ordinal
  `Contains`, `Split(char)` (empty pieces kept) and `Join`, with proofs that
  `Split` and `Join` are inverse.
- `menu.dfy`: the menu state (`CopyMusic`, `CopyMobSounds`), its initial value,
  cursor movement with wrap-around, and toggling.
- `filter.dfy`: the category filter. A name is kept when `"sounds/music"` or
  `"sounds/mob"` occurs anywhere in it as a substring.
- `catalog.dfy`: the index loader. Documents arrive already parsed. The catalog is
  built with add-if-absent, so the first occurrence of a name wins. The loader's
  boolean result and the cases where it throws are modelled.
- `resolver.dfy`: `Path.Combine` (Unix), the shard, the source path, the output
  file name, and resolution of one catalog entry.
- `copy.dfy`: an abstract file system (files with bytes, and directories), the
  create-new copy of one file, and the batch copy over the catalog. The batch is
  measured against a replay that applies each copy to the state the earlier ones
  left.

Behaviours of the code worth knowing:

- An index entry whose value is not a JSON object is not skipped. Reading its
  `"hash"` throws, and the exception ends the load. Only entries that are objects
  without a `hash` field are skipped.
- A name with exactly two segments gives the empty file name. Its destination is
  then the output folder itself, so the copy fails. A name with one segment makes
  the `[2..]` slice throw. No name that passes the filter has only one segment.
- A hash shorter than two characters makes `Substring(0, 2)` throw outside the
  copy's `try`, which ends the copy phase. So does a NUL character in the source
  path, which `new FileInfo(...)` rejects. A NUL in the destination path makes the
  copy's own stream fail inside the `try`, so only that copy fails.
- The copy reports only success or failure. There is no separate "skipped"
  outcome.
- A missing indexes folder and an empty catalog both return `false`. Only the
  printed message differs.
- `MenuState.cs` declares `ExtractMusic` and `ExtractMobSounds`, but `Program.cs`
  uses `CopyMusic`, `CopyMobSounds` and `HasOptions`. The model uses the names
  that `Program.cs` uses.

## Model

| member | source | states |
|---|---|---|
| Strings.Contains | MinecraftMusicExtractor/Program.cs:359-360 | Ordinal `string.Contains`: the marker is a prefix of the name or of some suffix of it. |
| Strings.ContainsIffOccurs | MinecraftMusicExtractor/Program.cs:359-360 | The recursive ordinal `Contains` holds exactly when the marker occurs at some index of the name. |
| Strings.Split | MinecraftMusicExtractor/Program.cs:424 | Splitting on `/` always yields at least one piece, and no piece contains the separator. |
| Strings.Join | MinecraftMusicExtractor/Program.cs:426 | `string.Join`: the pieces in order with the separator between neighbours, and the empty string for no pieces. |
| Strings.JoinSplit | MinecraftMusicExtractor/Program.cs:424-426 | Rejoining the pieces of a split with the separator gives back the original string. |
| Strings.SplitJoin | MinecraftMusicExtractor/Program.cs:424-426 | Splitting a join of a non-empty list of separator-free pieces gives back exactly those pieces. |
| Strings.SplitManyIffSeparator | MinecraftMusicExtractor/Program.cs:424-426 | A string splits into two or more pieces exactly when it contains the separator. |
| Menu.InitialMenuState | MinecraftMusicExtractor/Program.cs:19-31 | Without an `options` setting the menu opens with only music selected. With one, music is selected iff the setting contains `music` and mob sounds iff it contains `mobs`, so something is selected iff it mentions either. |
| Menu.HasSelection | MinecraftMusicExtractor/Program.cs:164-165 | The test before loading: at least one of the two categories is selected. |
| Menu.MoveSelectionUp | MinecraftMusicExtractor/Program.cs:289-298 | From a valid index the cursor stays in range, moves to `(index - 1) mod 2`, and always moves. |
| Menu.MoveSelectionDown | MinecraftMusicExtractor/Program.cs:303-312 | From a valid index the cursor stays in range, moves to `(index + 1) mod 2`, and Up undoes it. |
| Menu.DownUndoesUp | MinecraftMusicExtractor/Program.cs:289-312 | Down undoes Up on every valid index. |
| Menu.SetSelection | MinecraftMusicExtractor/Program.cs:256-267 | Index 0 flips only the music flag and index 1 only the mob flag. Any other index changes nothing. |
| Menu.SetSelectionTwiceRestores | MinecraftMusicExtractor/Program.cs:256-267 | Toggling the same item twice restores the state. |
| Menu.CursorStaysInMenu | MinecraftMusicExtractor/Program.cs:145-155 | Any sequence of Up and Down presses started on a valid item ends on a valid item. |
| Menu.Walk | MinecraftMusicExtractor/Program.cs:145-155 | The cursor after a sequence of arrow presses, each Down or Up applied in turn. |
| AssetFilter.Matches | MinecraftMusicExtractor/Program.cs:359-360 | The category test: music is selected and the name contains `sounds/music`, or mob sounds are selected and it contains `sounds/mob`. |
| AssetFilter.MatchesIffOccurs | MinecraftMusicExtractor/Program.cs:359-360 | A name is kept iff (music is selected and `sounds/music` occurs in it) or (mob sounds are selected and `sounds/mob` occurs in it). |
| AssetFilter.MatchedNameHasTwoSegments | MinecraftMusicExtractor/Program.cs:359-360 | Every kept name contains `/`, so it has at least two segments and the `[2..]` slice is defined. |
| AssetFilter.MarkerMatchesInsideSegment | MinecraftMusicExtractor/Program.cs:360 | The match is a substring match, not a segment match: `.../sounds/mobility.ogg` is kept as a mob sound. |
| AssetCatalog.TryAdd | MinecraftMusicExtractor/Program.cs:363 | Insertion is add-if-absent. The key set gains the name, every existing entry keeps its hash, and a new name gets the given hash. |
| AssetCatalog.AddAsset | MinecraftMusicExtractor/Program.cs:351-364 | One index entry: a value that is not an object throws, an entry without a hash or not matching the selection changes nothing, and otherwise the name is added with its hash if it is absent. |
| AssetCatalog.AddDocument | MinecraftMusicExtractor/Program.cs:334-346 | One parsed index: unparsable text throws, a `null` root or a missing `objects` adds nothing, and otherwise its entries are added in order. |
| AssetCatalog.AddAssets | MinecraftMusicExtractor/Program.cs:346-375 | One document's entries in order: a non-object value throws, and a kept entry with a hash is added if absent. |
| AssetCatalog.AddDocuments | MinecraftMusicExtractor/Program.cs:328-383 | The documents in enumeration order: an unparsable one throws, one without `objects` adds nothing, and otherwise its entries are added. |
| AssetCatalog.LoadIndexes | MinecraftMusicExtractor/Program.cs:317-402 | The load: `false` with an empty catalog when the indexes folder is missing, the exception when a document throws, and otherwise the catalog with `true` iff it is non-empty. |
| AssetCatalog.FirstHashIsEarliest | MinecraftMusicExtractor/Program.cs:346-364 | The reference lookup finds a hash exactly when some entry has a hash and a matching name. The hash it finds is that of the earliest such entry. |
| AssetCatalog.AddAssetsFirstWins | MinecraftMusicExtractor/Program.cs:346-375 | A document's entries make the load throw exactly when one of them is not an object. Otherwise a name already in the catalog keeps its hash, and a new name gets the hash of its first kept entry. |
| AssetCatalog.AddDocumentsFirstWins | MinecraftMusicExtractor/Program.cs:328-383 | Across documents, the load throws exactly when some document throws (unparsable text, or a non-object entry). Otherwise the first kept occurrence of a name, in document order and then entry order, decides its hash. |
| AssetCatalog.CatalogOnlyGrows | MinecraftMusicExtractor/Program.cs:363 | Loading never removes or overwrites a catalog entry. |
| AssetCatalog.MissingHashIsSkipped | MinecraftMusicExtractor/Program.cs:354-366 | An entry without a hash changes nothing. The rest of the document is processed as if the entry were absent. |
| AssetCatalog.LoadIndexesMeaning | MinecraftMusicExtractor/Program.cs:317-402 | With no indexes folder the result is `false` and the catalog is empty. Otherwise the load throws exactly when some document throws, and each name maps to its first kept hash. The result is `true` iff the folder exists and the catalog is non-empty, i.e. iff some entry was kept. |
| AssetCatalog.LoadedNamesHaveTwoSegments | MinecraftMusicExtractor/Program.cs:359-363 | Every catalogued name passed the filter and has at least two `/`-segments. |
| AssetCatalog.NothingSelectedLoadsNothing | MinecraftMusicExtractor/Program.cs:359-395 | With both categories off, the load either throws or returns `false` with an empty catalog. |
| AssetResolver.Combine | MinecraftMusicExtractor/Program.cs:420 | `Path.Combine` on Unix, every case: an empty second part gives the first, an empty first part gives the second, a rooted second part wins, a first part ending in `/` is concatenated directly, and otherwise the parts are joined with exactly one `/`. The second part always ends the result, and the result holds no character outside the parts and `/`. |
| AssetResolver.ObjectsFolder | MinecraftMusicExtractor/Program.cs:409-410 | The object store: the game directory combined with `assets` and then `objects`. |
| AssetResolver.ObjectsFolderLayout | MinecraftMusicExtractor/Program.cs:409-410 | Under an ordinary game directory, the store is `<dir>/assets/objects`. |
| AssetResolver.Shard | MinecraftMusicExtractor/Program.cs:418 | The store sub-directory: the hash's first two characters. |
| AssetResolver.SourcePath | MinecraftMusicExtractor/Program.cs:418-420 | The object's path: the store folder, the shard and the hash, combined as `Path.Combine` does. |
| AssetResolver.SourcePathLayout | MinecraftMusicExtractor/Program.cs:418-420 | The source path is `<objects>/<first two hash characters>/<hash>`. |
| AssetResolver.SourcePathSegments | MinecraftMusicExtractor/Program.cs:418-420 | The source path's segments are the store folder's segments, then the shard, then the hash. |
| AssetResolver.SourcePathValid | MinecraftMusicExtractor/Program.cs:418-420 | A NUL in the hash always reaches the source path. A NUL-free store folder and hash give a NUL-free source path. |
| AssetResolver.ValidPath | MinecraftMusicExtractor/Program.cs:420 | A path .NET accepts when making it absolute: it holds no NUL character. |
| AssetResolver.FileName | MinecraftMusicExtractor/Program.cs:424-426 | The output name contains no `/`, and a two-segment name gets the empty name. |
| AssetResolver.DestinationPath | MinecraftMusicExtractor/Program.cs:424-431 | The copy's target: the output folder combined with the output file name. |
| AssetResolver.FileNameSegments | MinecraftMusicExtractor/Program.cs:424-426 | For a name without `-` and with at least three segments, splitting the output name on `-` gives exactly the segments after the first two. |
| AssetResolver.FileNameOfSegments | MinecraftMusicExtractor/Program.cs:424-426 | A name built from `/`-free segments gets the segments after the second, joined by `-`. |
| AssetResolver.FileNameCollision | MinecraftMusicExtractor/Program.cs:424-426 | Two different names, one ending `a-b` and one ending `a/b`, get the same output name. |
| AssetResolver.Resolve | MinecraftMusicExtractor/Program.cs:416-431 | An entry resolves exactly when its hash has at least two characters, its source path holds no NUL, and its name has at least two segments. It then resolves to the source path and the destination path. A NUL in the hash never resolves. With a NUL-free store folder and hash, only the hash length and the segment count matter. |
| CopyEngine.CopyFile | MinecraftMusicExtractor/Program.cs:440-455 | The copy succeeds iff the source is a file, neither path holds a NUL, nothing exists at the destination, and the environment does not fail. Success writes the source's bytes to the destination. An existing destination leaves everything unchanged. Nothing changes unless the source could be opened. A transfer that breaks off after `n` bytes, from a stored source to a free and valid destination, leaves a file holding the source's first `n` bytes, so every later run finds that destination taken. No path other than the destination ever changes, and directories never change. |
| CopyEngine.RouteOf | MinecraftMusicExtractor/Program.cs:416-426 | The resolution of one catalog entry, by its name and hash. |
| CopyEngine.Routes | MinecraftMusicExtractor/Program.cs:414-426 | The resolutions of the catalog's entries in enumeration order: one per key, each the entry's own resolution. |
| CopyEngine.ReplayFrame | MinecraftMusicExtractor/Program.cs:414-432 | Replaying copies one after another never touches directories and never changes a file that was there. It creates files only at the destinations of the copies replayed. |
| CopyEngine.ReplayKeeps | MinecraftMusicExtractor/Program.cs:431 | A file present after some copies is still there, with the same bytes, after any later copy. |
| CopyEngine.ReplayCopies | MinecraftMusicExtractor/Program.cs:431-454 | A copy succeeds when nothing is in its way: no fault, its source is in the store, both paths are valid, and its destination was free at the start and is not the destination of an earlier copy. Its bytes then survive to the end of the batch. |
| CopyEngine.ReplayFailure | MinecraftMusicExtractor/Program.cs:431-454 | Conversely, a failed copy had a fault, a missing source, an invalid path, a destination taken at the start, or a destination that an earlier copy of the batch targeted and that holds a file when this copy runs. |
| CopyEngine.ReplayFillsDestination | MinecraftMusicExtractor/Program.cs:431-454 | After a fault-free copy of a stored source over valid paths, something exists at its destination until the end of the batch. Either this copy created it or it was already there. |
| CopyEngine.ReplayAllTaken | MinecraftMusicExtractor/Program.cs:431-454 | When every destination is already taken, replaying changes nothing and every copy fails. |
| CopyEngine.ReplayLeavesAllTaken | MinecraftMusicExtractor/Program.cs:414-454 | After a complete, fault-free run over stored sources, every destination is taken. |
| CopyEngine.CopyRoutes | MinecraftMusicExtractor/Program.cs:414-432 | The batch stops at the first unresolvable entry. Every result is the copy applied to the state the earlier copies left, and the final state is that replay. So a free, first-targeted destination with a stored source and no fault is copied with its source's bytes. A failure always has one of the reasons above, nothing existing is overwritten, and new files appear only at visited destinations. |
| CopyEngine.CopyAssets | MinecraftMusicExtractor/Program.cs:407-435 | The same properties, stated for the catalog's entries in dictionary enumeration order, with each entry's route being its resolution. The phase completes exactly when every entry resolves. |
| CopyEngine.CopyAssetsTwice | MinecraftMusicExtractor/Program.cs:407-454 | Running the copy phase again over the output of a complete, fault-free first run, with every resolved source in the store, creates nothing and reports every copy as failed, whatever faults the second run meets. |
| CopyEngine.TwoSegmentNameNeverCopies | MinecraftMusicExtractor/Program.cs:424-431 | A two-segment name targets the output folder itself. Since something exists there, its copy always fails and changes nothing. |
| CopyEngine.LoadedCatalogResolves | MinecraftMusicExtractor/Program.cs:359-420 | For a catalog the loader built, an entry fails to resolve exactly when its hash is shorter than two characters or its source path holds a NUL. With a NUL-free store folder, that is exactly when the hash is short or holds a NUL. |

## Left out

- Console I/O: prompts, coloured output, cursor positioning and key reading. The model has the menu's cursor and toggle arithmetic, not the screen.
- Command-line configuration (`source`, `dest`) and prompting for paths. The paths are parameters. The `options` setting is a parameter of the initial menu state.
- File-system probing and creation of folders. Whether the indexes folder exists is a parameter, and the output folder is assumed to be created before the copy phase.
- Directory enumeration: the index documents arrive as a sequence in enumeration order. Only `*.json` files are enumerated, and that filtering is not modelled.
- JSON deserialisation: documents arrive parsed. `Unparsable` stands for text that is not JSON or whose root is not an object; both throw. `NoObjects` stands for a `null` root or a missing `objects` field. A parsed document holds each asset name at most once: when a file repeats a property name, the parser keeps only the last occurrence, so the first-wins rule applies across documents and never to duplicates inside one file. Any value of a present `hash` field converts to a string, so it is `Some`.
- Reading an index file can fail with an I/O error. That would throw and is not modelled.
- The progress percentage: decimal division used only for display.
- Async execution, stream buffering and file options. One copy is a single transition. The environment's influence on it is the `Fault` parameter: opening fails, or the transfer stops after some bytes.
- Dictionary enumeration order in the copy phase is not specified by .NET. It is the `order` parameter, which lists each catalog key once. Every property holds for every such order.
- `FileInfo.FullName` normalisation, relative paths, `.`/`..` segments and Windows separators. Paths are strings combined as `Path.Combine` does on Unix.
- What happens after an exception. The program terminates, so the model reports `Threw` (load) or `completed == false` (copy) and keeps no partial catalog.
- AssetResolver.Resolve: lengths and `Substring(0, 2)` count Unicode scalar values, while .NET counts UTF-16 code units. They differ only for characters outside the Basic Multilingual Plane. Hashes are taken to be ASCII hexadecimal, as the index files hold them, so the shard is the same.
- The final interactive confirmation before the copy phase (`Y` to proceed). The copy phase is modelled as the step that follows a confirmed, successful load.

=== FILE: catalog.dfy ===
/**
 Building the asset catalog from the index documents: every asset whose entry
 carries a hash and whose name passes the category filter is added with
 add-if-absent, so the first occurrence of a name, in document order and then
 entry order, decides its hash.

 Documents arrive already parsed. A document whose text is not JSON, or whose
 root is not an object, makes the load throw; so does an entry whose value is
 not an object, because indexing a non-object JSON value by "hash" throws.
 */
module AssetCatalog {
  import opened Wrappers
  import opened Strings
  import opened Menu
  import opened AssetFilter

  /** Asset name to content hash. */
  type Catalog = map<string, string>

  /** The value an index gives an asset name: an object, maybe with a "hash" field, or anything else. */
  datatype AssetValue = Fields(hash: Option<string>) | NotAnObject

  datatype Asset = Asset(name: string, value: AssetValue)

  /** One parsed index file. `NoObjects` covers a null root and a root without an "objects" field. */
  datatype IndexDocument = Unparsable | NoObjects | Objects(assets: seq<Asset>)

  /** What loading the indexes produces: the boolean the loader returns with the catalog it built, or an exception. */
  datatype LoadOutcome = Loaded(success: bool, catalog: Catalog) | Threw

  function Get(c: Catalog, name: string): Option<string> {
    if name in c then Some(c[name]) else None
  }

  /** Add-if-absent: the first hash stored for a name stays. */
  function TryAdd(c: Catalog, name: string, hash: string): (r: Catalog)
    ensures r.Keys == c.Keys + {name}
    ensures forall k :: k in c ==> k in r && r[k] == c[k]
    ensures name !in c ==> r[name] == hash
  {
    if name in c then c else c[name := hash]
  }

  /** The entry has a hash and its name passes the filter. */
  predicate Kept(a: Asset, state: MenuState) {
    a.value.Fields? && a.value.hash.Some? && Matches(a.name, state)
  }

  /** Processes one entry; `None` is the exception a non-object value raises. */
  function AddAsset(c: Catalog, a: Asset, state: MenuState): Option<Catalog> {
    match a.value
    case NotAnObject => None
    case Fields(hash) =>
      if hash.Some? && Matches(a.name, state) then Some(TryAdd(c, a.name, hash.value)) else Some(c)
  }

  /** Processes the entries of one document in order. */
  function AddAssets(c: Catalog, assets: seq<Asset>, state: MenuState): Option<Catalog>
    decreases |assets|
  {
    if |assets| == 0 then Some(c)
    else
      match AddAsset(c, assets[0], state)
      case None => None
      case Some(c') => AddAssets(c', assets[1..], state)
  }

  function AddDocument(c: Catalog, doc: IndexDocument, state: MenuState): Option<Catalog> {
    match doc
    case Unparsable => None
    case NoObjects => Some(c)
    case Objects(assets) => AddAssets(c, assets, state)
  }

  /** Processes the documents in enumeration order. */
  function AddDocuments(c: Catalog, docs: seq<IndexDocument>, state: MenuState): Option<Catalog>
    decreases |docs|
  {
    if |docs| == 0 then Some(c)
    else
      match AddDocument(c, docs[0], state)
      case None => None
      case Some(c') => AddDocuments(c', docs[1..], state)
  }

  /**
   The loader: nothing is read when the indexes folder is missing; otherwise the
   documents are added to the (initially empty) catalog and the result is
   whether anything was found.
   */
  function LoadIndexes(indexesFolderExists: bool, docs: seq<IndexDocument>, state: MenuState): LoadOutcome {
    if !indexesFolderExists then Loaded(false, map[])
    else
      match AddDocuments(map[], docs, state)
      case None => Threw
      case Some(c) => Loaded(|c| > 0, c)
  }

  // ---------------------------------------------------------------------------
  // Reference definitions

  /** Entry `i` supplies a hash for `name`. */
  predicate Provides(assets: seq<Asset>, state: MenuState, name: string, i: int) {
    0 <= i < |assets| && Kept(assets[i], state) && assets[i].name == name
  }

  /** The hash of the first entry that supplies one for `name`. */
  function FirstHash(assets: seq<Asset>, state: MenuState, name: string): Option<string>
    decreases |assets|
  {
    if |assets| == 0 then None
    else if Kept(assets[0], state) && assets[0].name == name then Some(assets[0].value.hash.value)
    else FirstHash(assets[1..], state, name)
  }

  /** The entry makes the loader throw. */
  predicate AssetThrows(a: Asset) {
    a.value.NotAnObject?
  }

  /** The document makes the loader throw. */
  predicate DocumentThrows(doc: IndexDocument) {
    || doc.Unparsable?
    || (doc.Objects? && exists j :: 0 <= j < |doc.assets| && AssetThrows(doc.assets[j]))
  }

  /** All entries of all documents, in processing order. */
  function AllAssets(docs: seq<IndexDocument>): seq<Asset>
    decreases |docs|
  {
    if |docs| == 0 then []
    else (if docs[0].Objects? then docs[0].assets else []) + AllAssets(docs[1..])
  }

  // ---------------------------------------------------------------------------
  // Properties

  /** FirstHash finds a hash exactly when some entry supplies one, and it is the earliest such entry's. */
  lemma {:induction false} FirstHashIsEarliest(assets: seq<Asset>, state: MenuState, name: string)
    ensures FirstHash(assets, state, name).Some? <==> exists i :: Provides(assets, state, name, i)
    ensures FirstHash(assets, state, name).Some? ==>
      exists i :: Provides(assets, state, name, i)
        && assets[i].value.hash.value == FirstHash(assets, state, name).value
        && forall j :: 0 <= j < i ==> !Provides(assets, state, name, j)
    decreases |assets|
  {
    if |assets| > 0 && !(Kept(assets[0], state) && assets[0].name == name) {
      var tail := assets[1..];
      FirstHashIsEarliest(tail, state, name);
      forall i | 0 < i < |assets|
        ensures Provides(assets, state, name, i) <==> Provides(tail, state, name, i - 1)
      {
        assert assets[i] == tail[i - 1];
      }
      if FirstHash(tail, state, name).Some? {
        var i :| Provides(tail, state, name, i)
          && tail[i].value.hash.value == FirstHash(tail, state, name).value
          && forall j :: 0 <= j < i ==> !Provides(tail, state, name, j);
        assert Provides(assets, state, name, i + 1);
        forall j | 0 <= j < i + 1 ensures !Provides(assets, state, name, j) {
          if j > 0 {
            assert !Provides(tail, state, name, j - 1);
          }
        }
      } else {
        forall i ensures !Provides(assets, state, name, i) {
          if 0 < i < |assets| {
            assert !Provides(tail, state, name, i - 1);
          }
        }
      }
    } else if |assets| > 0 {
      assert Provides(assets, state, name, 0);
    }
  }

  /** Searching a concatenation searches the first part, then the second. */
  lemma {:induction false} FirstHashAppend(xs: seq<Asset>, ys: seq<Asset>, state: MenuState, name: string)
    ensures FirstHash(xs + ys, state, name) == FirstHash(xs, state, name).Or(FirstHash(ys, state, name))
    decreases |xs|
  {
    if |xs| > 0 {
      assert (xs + ys)[0] == xs[0];
      assert (xs + ys)[1..] == xs[1..] + ys;
      FirstHashAppend(xs[1..], ys, state, name);
    } else {
      assert xs + ys == ys;
    }
  }

  /**
   One document's entries: the load throws exactly when some entry is not an
   object; otherwise a name already present keeps its hash, and an absent name
   gets the hash of its first kept entry.
   */
  lemma {:induction false} AddAssetsFirstWins(c: Catalog, assets: seq<Asset>, state: MenuState)
    ensures AddAssets(c, assets, state).None? <==> exists j :: 0 <= j < |assets| && AssetThrows(assets[j])
    ensures AddAssets(c, assets, state).Some? ==>
      forall k :: Get(AddAssets(c, assets, state).value, k) == Get(c, k).Or(FirstHash(assets, state, k))
    decreases |assets|
  {
    if |assets| > 0 {
      var tail := assets[1..];
      assert forall j :: 0 < j < |assets| ==> assets[j] == tail[j - 1];
      match AddAsset(c, assets[0], state)
      case None =>
        assert AssetThrows(assets[0]);
      case Some(c') =>
        AddAssetsFirstWins(c', tail, state);
        if exists j :: 0 <= j < |tail| && AssetThrows(tail[j]) {
          var j :| 0 <= j < |tail| && AssetThrows(tail[j]);
          assert AssetThrows(assets[j + 1]);
        }
        if AddAssets(c, assets, state).Some? {
          forall k ensures Get(AddAssets(c, assets, state).value, k) == Get(c, k).Or(FirstHash(assets, state, k)) {
            assert Get(c', k) == Get(c, k).Or(if Kept(assets[0], state) && assets[0].name == k
              then Some(assets[0].value.hash.value) else None);
          }
        }
    }
  }

  /** A document-level restatement: the whole load throws exactly when some document throws; otherwise first kept entry wins across documents. */
  lemma {:induction false} AddDocumentsFirstWins(c: Catalog, docs: seq<IndexDocument>, state: MenuState)
    ensures AddDocuments(c, docs, state).None? <==> exists i :: 0 <= i < |docs| && DocumentThrows(docs[i])
    ensures AddDocuments(c, docs, state).Some? ==>
      forall k :: Get(AddDocuments(c, docs, state).value, k) == Get(c, k).Or(FirstHash(AllAssets(docs), state, k))
    decreases |docs|
  {
    if |docs| > 0 {
      var tail := docs[1..];
      assert forall i :: 0 < i < |docs| ==> docs[i] == tail[i - 1];
      var own := if docs[0].Objects? then docs[0].assets else [];
      assert AllAssets(docs) == own + AllAssets(tail);
      match AddDocument(c, docs[0], state)
      case None =>
        if docs[0].Objects? {
          AddAssetsFirstWins(c, docs[0].assets, state);
        }
        assert DocumentThrows(docs[0]);
      case Some(c') =>
        if docs[0].Objects? {
          AddAssetsFirstWins(c, docs[0].assets, state);
        }
        assert !DocumentThrows(docs[0]);
        assert forall k :: Get(c', k) == Get(c, k).Or(FirstHash(own, state, k));
        AddDocumentsFirstWins(c', tail, state);
        if exists i :: 0 <= i < |tail| && DocumentThrows(tail[i]) {
          var i :| 0 <= i < |tail| && DocumentThrows(tail[i]);
          assert DocumentThrows(docs[i + 1]);
        }
        if AddDocuments(c, docs, state).Some? {
          forall k ensures Get(AddDocuments(c, docs, state).value, k) == Get(c, k).Or(FirstHash(AllAssets(docs), state, k)) {
            FirstHashAppend(own, AllAssets(tail), state, k);
          }
        }
    }
  }

  /** Entries are never removed or overwritten while documents are added. */
  lemma CatalogOnlyGrows(c: Catalog, docs: seq<IndexDocument>, state: MenuState)
    requires AddDocuments(c, docs, state).Some?
    ensures c.Keys <= AddDocuments(c, docs, state).value.Keys
    ensures forall k :: k in c ==> AddDocuments(c, docs, state).value[k] == c[k]
  {
    var r := AddDocuments(c, docs, state).value;
    AddDocumentsFirstWins(c, docs, state);
    forall k | k in c ensures k in r && r[k] == c[k] {
      assert Get(r, k) == Get(c, k);
    }
  }

  /**
   The loader's result: it fails without reading when the folder is missing;
   it throws exactly when some document throws; otherwise the catalog maps each
   name to the hash of its first kept entry, and the result is true exactly
   when the catalog is non-empty, i.e. when some entry was kept.
   */
  lemma LoadIndexesMeaning(indexesFolderExists: bool, docs: seq<IndexDocument>, state: MenuState)
    ensures !indexesFolderExists ==> LoadIndexes(indexesFolderExists, docs, state) == Loaded(false, map[])
    ensures indexesFolderExists ==>
      (LoadIndexes(indexesFolderExists, docs, state).Threw? <==> exists i :: 0 <= i < |docs| && DocumentThrows(docs[i]))
    ensures indexesFolderExists && LoadIndexes(indexesFolderExists, docs, state).Loaded? ==>
      forall k :: Get(LoadIndexes(indexesFolderExists, docs, state).catalog, k) == FirstHash(AllAssets(docs), state, k)
    ensures LoadIndexes(indexesFolderExists, docs, state).Loaded? ==>
      (LoadIndexes(indexesFolderExists, docs, state).success <==>
        indexesFolderExists && |LoadIndexes(indexesFolderExists, docs, state).catalog| > 0)
    ensures indexesFolderExists && LoadIndexes(indexesFolderExists, docs, state).Loaded? ==>
      (LoadIndexes(indexesFolderExists, docs, state).success <==>
        exists i :: 0 <= i < |AllAssets(docs)| && Kept(AllAssets(docs)[i], state))
  {
    if indexesFolderExists {
      AddDocumentsFirstWins(map[], docs, state);
      var r := LoadIndexes(indexesFolderExists, docs, state);
      if r.Loaded? {
        var all := AllAssets(docs);
        if r.success {
          var k :| k in r.catalog;
          assert Get(r.catalog, k).Some?;
          FirstHashIsEarliest(all, state, k);
          var i :| Provides(all, state, k, i);
          assert Kept(all[i], state);
        }
        if exists i :: 0 <= i < |all| && Kept(all[i], state) {
          var i :| 0 <= i < |all| && Kept(all[i], state);
          FirstHashIsEarliest(all, state, all[i].name);
          assert Provides(all, state, all[i].name, i);
          assert Get(r.catalog, all[i].name).Some?;
        }
      }
    }
  }

  /** Every name the loader catalogues passed the filter and so splits into at least two segments. */
  lemma LoadedNamesHaveTwoSegments(indexesFolderExists: bool, docs: seq<IndexDocument>, state: MenuState)
    requires LoadIndexes(indexesFolderExists, docs, state).Loaded?
    ensures forall k :: k in LoadIndexes(indexesFolderExists, docs, state).catalog ==>
      Matches(k, state) && |Split(k, '/')| >= 2
  {
    var r := LoadIndexes(indexesFolderExists, docs, state);
    LoadIndexesMeaning(indexesFolderExists, docs, state);
    forall k | k in r.catalog ensures Matches(k, state) && |Split(k, '/')| >= 2 {
      assert Get(r.catalog, k).Some?;
      FirstHashIsEarliest(AllAssets(docs), state, k);
      var i :| Provides(AllAssets(docs), state, k, i);
      MatchedNameHasTwoSegments(k, state);
    }
  }

  /** With both categories off nothing is kept, so a completed load reports failure with an empty catalog. */
  lemma NothingSelectedLoadsNothing(indexesFolderExists: bool, docs: seq<IndexDocument>, state: MenuState)
    requires !HasSelection(state)
    ensures LoadIndexes(indexesFolderExists, docs, state) in {Threw, Loaded(false, map[])}
  {
    var r := LoadIndexes(indexesFolderExists, docs, state);
    if r.Loaded? && indexesFolderExists {
      LoadIndexesMeaning(indexesFolderExists, docs, state);
      forall k ensures k !in r.catalog {
        FirstHashIsEarliest(AllAssets(docs), state, k);
        assert Get(r.catalog, k) == None;
      }
      assert r.catalog == map[];
    }
  }

  /** An entry without a hash is skipped: the rest of the document is processed as if it were absent. */
  lemma {:induction false} MissingHashIsSkipped(c: Catalog, before: seq<Asset>, name: string, after: seq<Asset>, state: MenuState)
    ensures AddAssets(c, before + [Asset(name, Fields(None))] + after, state) == AddAssets(c, before + after, state)
    decreases |before|
  {
    var skipped := Asset(name, Fields(None));
    if |before| == 0 {
      assert before + [skipped] + after == [skipped] + after;
      assert ([skipped] + after)[1..] == after;
      assert before + after == after;
    } else {
      var s1 := before + [skipped] + after;
      var s2 := before + after;
      assert s1[0] == before[0] && s2[0] == before[0];
      assert s1[1..] == before[1..] + [skipped] + after;
      assert s2[1..] == before[1..] + after;
      match AddAsset(c, before[0], state)
      case None =>
      case Some(c') =>
        MissingHashIsSkipped(c', before[1..], name, after, state);
    }
  }
}

=== FILE: copy.dfy ===
/**
 The copy phase. The file system is abstract: regular files with their bytes
 and a set of directories. A single copy opens the source for reading and
 creates the destination with create-new semantics, so an existing file or
 directory at the destination is never overwritten. Every failure inside the
 copy is caught and reported as `Failed`, and the batch moves on; resolving
 an entry (taking the hash's first two characters, dropping the name's first
 two segments) happens outside that protection, so a failure there ends the
 batch.
 */
module CopyEngine {
  import opened Wrappers
  import opened Strings
  import opened AssetCatalog
  import opened AssetResolver
  import opened Menu

  type Bytes = seq<bv8>

  datatype FileSystem = FileSystem(files: map<string, Bytes>, directories: set<string>) {
    /** Something, file or directory, is at `path`. */
    predicate Exists(path: string) {
      path in files || path in directories
    }
  }

  /**
   What the environment does to one copy that the model cannot derive:
   opening fails (permissions, a missing parent directory), or the transfer
   breaks off after `written` bytes (disk full, I/O error).
   */
  datatype Fault = NoFault | OpenFault | WriteFault(written: nat)

  datatype CopyResult = Copied | Failed

  datatype Copy = Copy(fs: FileSystem, result: CopyResult)

  function Min(a: int, b: int): int {
    if a < b then a else b
  }

  /**
   Copies one file with create-new semantics. Opening a stream on a path that
   holds a NUL throws, which the copy catches like any other failure.
   */
  function CopyFile(fs: FileSystem, source: string, destination: string, fault: Fault): (r: Copy)
    ensures r.result.Copied? <==>
      source in fs.files && ValidPath(source) && ValidPath(destination) && !fs.Exists(destination) && fault.NoFault?
    ensures r.result.Copied? ==> r.fs.files == fs.files[destination := fs.files[source]]
    ensures fs.Exists(destination) ==> r.fs == fs && r.result.Failed?
    ensures r.fs != fs ==> !fs.Exists(destination) && ValidPath(destination) && (r.result.Copied? || fault.WriteFault?)
    ensures r.fs != fs ==> source in fs.files && ValidPath(source) && !fault.OpenFault?
    ensures r.fs != fs ==> destination in r.fs.files && r.fs.files[destination] <= fs.files[source]
    ensures source in fs.files && ValidPath(source) && ValidPath(destination) && !fs.Exists(destination) && fault.WriteFault? ==>
      destination in r.fs.files && r.fs.files[destination] == fs.files[source][..Min(fault.written, |fs.files[source]|)]
    ensures r.fs.directories == fs.directories
    ensures forall p :: p in fs.files ==> p in r.fs.files && r.fs.files[p] == fs.files[p]
    ensures forall p :: p in r.fs.files ==> p in fs.files || p == destination
  {
    if source !in fs.files || !ValidPath(source) then Copy(fs, Failed)
    else if fault.OpenFault? then Copy(fs, Failed)
    else if !ValidPath(destination) then Copy(fs, Failed)
    else if fs.Exists(destination) then Copy(fs, Failed)
    else
      var data := fs.files[source];
      match fault
      case NoFault => Copy(fs.(files := fs.files[destination := data]), Copied)
      case WriteFault(written) => Copy(fs.(files := fs.files[destination := data[..Min(written, |data|)]]), Failed)
  }

  /** The route the batch takes for the entry of `name`, or `None` where resolving it throws. */
  function RouteOf(objectsFolder: string, destinationFolder: string, catalog: Catalog, name: string): Option<Route>
    requires name in catalog
  {
    Resolve(objectsFolder, destinationFolder, name, catalog[name])
  }

  /** The route, if it resolves, leads to something that already exists. */
  predicate Taken(fs: FileSystem, route: Option<Route>) {
    route.Some? ==> fs.Exists(route.value.destination)
  }

  /** Every route that resolves leads to something that already exists. */
  predicate AllTaken(fs: FileSystem, routes: seq<Option<Route>>) {
    forall i :: 0 <= i < |routes| ==> Taken(fs, routes[i])
  }

  /**
   The file system after the first `n` copies along `routes`, each applied to
   the state the previous one left: the reference the batch is measured
   against.
   */
  function Replay(fs: FileSystem, routes: seq<Option<Route>>, faults: seq<Fault>, n: nat): FileSystem
    requires n <= |routes| == |faults|
    requires forall i :: 0 <= i < n ==> routes[i].Some?
    decreases n, 0
  {
    if n == 0 then fs else StepOf(fs, routes, faults, n - 1).fs
  }

  /** Copy number `i` of the batch, applied to the state the copies before it left. */
  function StepOf(fs: FileSystem, routes: seq<Option<Route>>, faults: seq<Fault>, i: nat): Copy
    requires i < |routes| == |faults|
    requires forall j :: 0 <= j <= i ==> routes[j].Some?
    decreases i, 1
  {
    CopyFile(Replay(fs, routes, faults, i), routes[i].value.source, routes[i].value.destination, faults[i])
  }

  /** No earlier route targets the destination of route `i`. */
  predicate FirstAtDestination(routes: seq<Option<Route>>, i: nat)
    requires i < |routes|
    requires forall j :: 0 <= j <= i ==> routes[j].Some?
  {
    forall j :: 0 <= j < i ==> routes[j].value.destination != routes[i].value.destination
  }

  /** Copy `i` can run: no fault, its source in the store, and both paths valid. */
  predicate Runnable(fs: FileSystem, routes: seq<Option<Route>>, faults: seq<Fault>, i: nat)
    requires i < |routes| == |faults|
    requires forall j :: 0 <= j <= i ==> routes[j].Some?
  {
    && faults[i].NoFault?
    && routes[i].value.source in fs.files
    && ValidPath(routes[i].value.source)
    && ValidPath(routes[i].value.destination)
  }

  /** Copy `i` can run, and its destination is free at the start and targeted by no earlier copy. */
  predicate Unobstructed(fs: FileSystem, routes: seq<Option<Route>>, faults: seq<Fault>, i: nat)
    requires i < |routes| == |faults|
    requires forall j :: 0 <= j <= i ==> routes[j].Some?
  {
    && Runnable(fs, routes, faults, i)
    && !fs.Exists(routes[i].value.destination)
    && FirstAtDestination(routes, i)
  }

  /**
   The reasons copy `i` can fail for: a fault, a missing source, an invalid
   path, a destination taken at the start, or a destination an earlier copy
   of the batch targeted and that holds a file when copy `i` runs.
   */
  predicate FailureExplained(fs: FileSystem, routes: seq<Option<Route>>, faults: seq<Fault>, i: nat)
    requires i < |routes| == |faults|
    requires forall j :: 0 <= j <= i ==> routes[j].Some?
  {
    || !faults[i].NoFault?
    || routes[i].value.source !in fs.files
    || !ValidPath(routes[i].value.source)
    || !ValidPath(routes[i].value.destination)
    || fs.Exists(routes[i].value.destination)
    || (routes[i].value.destination in Replay(fs, routes, faults, i).files && !FirstAtDestination(routes, i))
  }

  /** Every unobstructed copy of the batch succeeded, and its source's bytes are at its destination in `out`. */
  predicate CopiesWhenUnobstructed(fs: FileSystem, routes: seq<Option<Route>>, faults: seq<Fault>, out: FileSystem, results: seq<CopyResult>)
    requires |results| <= |routes| == |faults|
    requires forall i :: 0 <= i < |results| ==> routes[i].Some?
  {
    forall i :: 0 <= i < |results| && Unobstructed(fs, routes, faults, i) ==>
      && results[i].Copied?
      && routes[i].value.destination in out.files
      && out.files[routes[i].value.destination] == fs.files[routes[i].value.source]
  }

  /** Every failed copy of the batch failed for one of the reasons above. */
  predicate FailuresExplained(fs: FileSystem, routes: seq<Option<Route>>, faults: seq<Fault>, results: seq<CopyResult>)
    requires |results| <= |routes| == |faults|
    requires forall i :: 0 <= i < |results| ==> routes[i].Some?
  {
    forall i :: 0 <= i < |results| && results[i].Failed? ==> FailureExplained(fs, routes, faults, i)
  }

  /** Every runnable copy of the batch left something at its destination in `out`. */
  predicate DestinationsFilled(fs: FileSystem, routes: seq<Option<Route>>, faults: seq<Fault>, out: FileSystem, results: seq<CopyResult>)
    requires |results| <= |routes| == |faults|
    requires forall i :: 0 <= i < |results| ==> routes[i].Some?
  {
    forall i :: 0 <= i < |results| && Runnable(fs, routes, faults, i) ==> out.Exists(routes[i].value.destination)
  }

  /** The copies never touch directories, never change an existing file, and create files only at their destinations. */
  lemma {:induction false} ReplayFrame(fs: FileSystem, routes: seq<Option<Route>>, faults: seq<Fault>, n: nat)
    requires n <= |routes| == |faults|
    requires forall i :: 0 <= i < n ==> routes[i].Some?
    ensures Replay(fs, routes, faults, n).directories == fs.directories
    ensures forall p :: p in fs.files ==>
      p in Replay(fs, routes, faults, n).files && Replay(fs, routes, faults, n).files[p] == fs.files[p]
    ensures forall p :: p in Replay(fs, routes, faults, n).files && p !in fs.files ==>
      exists j :: 0 <= j < n && p == routes[j].value.destination
  {
    if n > 0 {
      ReplayFrame(fs, routes, faults, n - 1);
      var after := Replay(fs, routes, faults, n);
      var route := routes[n - 1].value;
      assert after == StepOf(fs, routes, faults, n - 1).fs;
      assert after == CopyFile(Replay(fs, routes, faults, n - 1), route.source, route.destination, faults[n - 1]).fs;
      forall p | p in after.files && p !in fs.files
        ensures exists j :: 0 <= j < n && p == routes[j].value.destination
      {
        if p != routes[n - 1].value.destination {
          assert p in Replay(fs, routes, faults, n - 1).files;
          var j :| 0 <= j < n - 1 && p == routes[j].value.destination;
        }
      }
    }
  }

  /** A file present after `m` copies is still there, unchanged, after `n >= m`. */
  lemma {:induction false} ReplayKeeps(fs: FileSystem, routes: seq<Option<Route>>, faults: seq<Fault>, m: nat, n: nat)
    requires m <= n <= |routes| == |faults|
    requires forall i :: 0 <= i < n ==> routes[i].Some?
    ensures forall p :: p in Replay(fs, routes, faults, m).files ==>
      p in Replay(fs, routes, faults, n).files
      && Replay(fs, routes, faults, n).files[p] == Replay(fs, routes, faults, m).files[p]
    ensures Replay(fs, routes, faults, n).directories == Replay(fs, routes, faults, m).directories
    decreases n - m
  {
    if m < n {
      ReplayKeeps(fs, routes, faults, m + 1, n);
    }
  }

  /**
   An unobstructed copy succeeds, and the copied bytes survive the rest of
   the batch.
   */
  lemma ReplayCopies(fs: FileSystem, routes: seq<Option<Route>>, faults: seq<Fault>, i: nat, n: nat)
    requires i < n <= |routes| == |faults|
    requires forall j :: 0 <= j < n ==> routes[j].Some?
    requires Unobstructed(fs, routes, faults, i)
    ensures StepOf(fs, routes, faults, i).result.Copied?
    ensures routes[i].value.destination in Replay(fs, routes, faults, n).files
    ensures Replay(fs, routes, faults, n).files[routes[i].value.destination] == fs.files[routes[i].value.source]
  {
    ReplayFrame(fs, routes, faults, i);
    ReplayKeeps(fs, routes, faults, i + 1, n);
  }

  /** A failed copy failed for an explained reason. */
  lemma ReplayFailure(fs: FileSystem, routes: seq<Option<Route>>, faults: seq<Fault>, i: nat)
    requires i < |routes| == |faults|
    requires forall j :: 0 <= j <= i ==> routes[j].Some?
    requires StepOf(fs, routes, faults, i).result.Failed?
    ensures FailureExplained(fs, routes, faults, i)
  {
    ReplayFrame(fs, routes, faults, i);
  }

  /**
   Once a runnable copy has run, something exists at its destination for
   the rest of the batch, whether this copy created it or it was there
   already.
   */
  lemma ReplayFillsDestination(fs: FileSystem, routes: seq<Option<Route>>, faults: seq<Fault>, i: nat, n: nat)
    requires i < n <= |routes| == |faults|
    requires forall j :: 0 <= j < n ==> routes[j].Some?
    requires Runnable(fs, routes, faults, i)
    ensures Replay(fs, routes, faults, n).Exists(routes[i].value.destination)
  {
    ReplayFrame(fs, routes, faults, i);
    ReplayKeeps(fs, routes, faults, i, i + 1);
    ReplayKeeps(fs, routes, faults, i + 1, n);
  }

  /** When every destination is already taken, no copy changes anything and every copy fails. */
  lemma {:induction false} ReplayAllTaken(fs: FileSystem, routes: seq<Option<Route>>, faults: seq<Fault>, n: nat)
    requires n <= |routes| == |faults|
    requires forall i :: 0 <= i < n ==> routes[i].Some?
    requires AllTaken(fs, routes)
    ensures Replay(fs, routes, faults, n) == fs
    ensures forall i :: 0 <= i < n ==> StepOf(fs, routes, faults, i).result.Failed?
  {
    if n > 0 {
      ReplayAllTaken(fs, routes, faults, n - 1);
      assert Taken(fs, routes[n - 1]);
    }
  }

  /** `ReplayCopies` for every copy of the first `n`. */
  lemma ReplayCopiesAll(fs: FileSystem, routes: seq<Option<Route>>, faults: seq<Fault>, n: nat)
    requires n <= |routes| == |faults|
    requires forall i :: 0 <= i < n ==> routes[i].Some?
    ensures forall i :: 0 <= i < n && Unobstructed(fs, routes, faults, i) ==>
      && StepOf(fs, routes, faults, i).result.Copied?
      && routes[i].value.destination in Replay(fs, routes, faults, n).files
      && Replay(fs, routes, faults, n).files[routes[i].value.destination] == fs.files[routes[i].value.source]
  {
    forall i | 0 <= i < n && Unobstructed(fs, routes, faults, i) {
      ReplayCopies(fs, routes, faults, i, n);
    }
  }

  /** `ReplayFailure` for every copy of the first `n`. */
  lemma ReplayFailureAll(fs: FileSystem, routes: seq<Option<Route>>, faults: seq<Fault>, n: nat)
    requires n <= |routes| == |faults|
    requires forall i :: 0 <= i < n ==> routes[i].Some?
    ensures forall i :: 0 <= i < n && StepOf(fs, routes, faults, i).result.Failed? ==> FailureExplained(fs, routes, faults, i)
  {
    forall i | 0 <= i < n && StepOf(fs, routes, faults, i).result.Failed? {
      ReplayFailure(fs, routes, faults, i);
    }
  }

  /** `ReplayFillsDestination` for every copy of the first `n`. */
  lemma ReplayFillsAll(fs: FileSystem, routes: seq<Option<Route>>, faults: seq<Fault>, n: nat)
    requires n <= |routes| == |faults|
    requires forall i :: 0 <= i < n ==> routes[i].Some?
    ensures forall i :: 0 <= i < n && Runnable(fs, routes, faults, i) ==>
      Replay(fs, routes, faults, n).Exists(routes[i].value.destination)
  {
    forall i | 0 <= i < n && Runnable(fs, routes, faults, i) {
      ReplayFillsDestination(fs, routes, faults, i, n);
    }
  }

  /**
   A complete run without faults, over routes whose sources are all in the
   store, leaves every destination taken, so a second run finds nothing to do.
   */
  lemma ReplayLeavesAllTaken(fs: FileSystem, routes: seq<Option<Route>>, faults: seq<Fault>)
    requires |routes| == |faults|
    requires forall i :: 0 <= i < |routes| ==> routes[i].Some?
    requires forall i :: 0 <= i < |routes| ==> Runnable(fs, routes, faults, i)
    ensures AllTaken(Replay(fs, routes, faults, |routes|), routes)
  {
    forall i | 0 <= i < |routes|
      ensures Taken(Replay(fs, routes, faults, |routes|), routes[i])
    {
      ReplayFillsDestination(fs, routes, faults, i, |routes|);
    }
  }

  /**
   Runs the copies along `routes` in order, stopping at the first route that
   could not be resolved (`completed` is then false and `results` holds the
   outcomes before it). Each copy is the one the replay prescribes, so the
   replay lemmas above describe what the batch did.
   */
  method CopyRoutes(fs: FileSystem, routes: seq<Option<Route>>, faults: seq<Fault>)
    returns (out: FileSystem, results: seq<CopyResult>, completed: bool)
    requires |faults| == |routes|
    ensures |results| <= |routes|
    ensures completed <==> forall i :: 0 <= i < |routes| ==> routes[i].Some?
    ensures completed ==> |results| == |routes|
    ensures !completed ==> |results| < |routes| && routes[|results|].None?
    ensures forall i :: 0 <= i < |results| ==> routes[i].Some?
    ensures out == Replay(fs, routes, faults, |results|)
    ensures forall i :: 0 <= i < |results| ==> results[i] == StepOf(fs, routes, faults, i).result
    ensures out.directories == fs.directories
    ensures forall p :: p in fs.files ==> p in out.files && out.files[p] == fs.files[p]
    ensures forall p :: p in out.files && p !in fs.files ==>
      exists i :: 0 <= i < |results| && p == routes[i].value.destination
    ensures CopiesWhenUnobstructed(fs, routes, faults, out, results)
    ensures FailuresExplained(fs, routes, faults, results)
    ensures DestinationsFilled(fs, routes, faults, out, results)
    ensures AllTaken(fs, routes) ==> out == fs && forall i :: 0 <= i < |results| ==> results[i].Failed?
  {
    out := fs;
    results := [];
    completed := true;
    var i := 0;
    while i < |routes|
      invariant 0 <= i <= |routes|
      invariant |results| == i
      invariant forall j :: 0 <= j < i ==> routes[j].Some?
      invariant out == Replay(fs, routes, faults, i)
      invariant forall j :: 0 <= j < i ==> results[j] == StepOf(fs, routes, faults, j).result
    {
      var route := routes[i];
      if route.None? {
        completed := false;
        break;
      }
      var step := CopyFile(out, route.value.source, route.value.destination, faults[i]);
      out := step.fs;
      results := results + [step.result];
      i := i + 1;
    }
    ReplayFrame(fs, routes, faults, i);
    ReplayCopiesAll(fs, routes, faults, i);
    ReplayFailureAll(fs, routes, faults, i);
    ReplayFillsAll(fs, routes, faults, i);
    if AllTaken(fs, routes) {
      ReplayAllTaken(fs, routes, faults, i);
    }
  }

  /** The route of every name of `order`, in that order. */
  function Routes(objectsFolder: string, destinationFolder: string, catalog: Catalog, order: seq<string>): (routes: seq<Option<Route>>)
    requires forall i :: 0 <= i < |order| ==> order[i] in catalog
    ensures |routes| == |order|
    ensures forall i :: 0 <= i < |order| ==> routes[i] == RouteOf(objectsFolder, destinationFolder, catalog, order[i])
  {
    seq(|order|, i requires 0 <= i < |order| => RouteOf(objectsFolder, destinationFolder, catalog, order[i]))
  }

  /**
   The copy phase: resolves and copies every catalog entry, visiting the names
   in `order`, the order in which the dictionary enumerates its keys.
   `faults[i]` is what the environment does to the i-th copy, and `routes`
   are the source-to-destination mappings the program reports as it goes.
   */
  method CopyAssets(fs: FileSystem, objectsFolder: string, destinationFolder: string,
                    catalog: Catalog, order: seq<string>, faults: seq<Fault>)
    returns (routes: seq<Option<Route>>, out: FileSystem, results: seq<CopyResult>, completed: bool)
    requires |faults| == |order|
    requires forall i :: 0 <= i < |order| ==> order[i] in catalog
    requires forall k :: k in catalog ==> k in order
    requires forall i, j :: 0 <= i < j < |order| ==> order[i] != order[j]
    ensures routes == Routes(objectsFolder, destinationFolder, catalog, order)
    ensures |results| <= |order|
    ensures completed <==> forall i :: 0 <= i < |order| ==> routes[i].Some?
    ensures completed ==> |results| == |order|
    ensures !completed ==> |results| < |order| && routes[|results|].None?
    ensures forall i :: 0 <= i < |results| ==> routes[i].Some?
    ensures out == Replay(fs, routes, faults, |results|)
    ensures forall i :: 0 <= i < |results| ==> results[i] == StepOf(fs, routes, faults, i).result
    ensures out.directories == fs.directories
    ensures forall p :: p in fs.files ==> p in out.files && out.files[p] == fs.files[p]
    ensures forall p :: p in out.files && p !in fs.files ==>
      exists i :: 0 <= i < |results| && p == routes[i].value.destination
    ensures CopiesWhenUnobstructed(fs, routes, faults, out, results)
    ensures FailuresExplained(fs, routes, faults, results)
    ensures DestinationsFilled(fs, routes, faults, out, results)
    ensures AllTaken(fs, routes) ==> out == fs && forall i :: 0 <= i < |results| ==> results[i].Failed?
  {
    routes := Routes(objectsFolder, destinationFolder, catalog, order);
    out, results, completed := CopyRoutes(fs, routes, faults);
  }

  /**
   Running the copy phase a second time, over the folder a first complete,
   fault-free run produced and with the same store, creates nothing and
   reports every copy as failed, whatever the environment does to the second
   run's copies.
   */
  method CopyAssetsTwice(fs: FileSystem, objectsFolder: string, destinationFolder: string,
                         catalog: Catalog, order: seq<string>, faults: seq<Fault>, secondFaults: seq<Fault>)
    returns (first: FileSystem, second: FileSystem, secondResults: seq<CopyResult>)
    requires |faults| == |order|
    requires |secondFaults| == |order|
    requires forall i :: 0 <= i < |order| ==> order[i] in catalog
    requires forall k :: k in catalog ==> k in order
    requires forall i, j :: 0 <= i < j < |order| ==> order[i] != order[j]
    requires forall i :: 0 <= i < |order| ==> faults[i].NoFault?
    requires forall i :: 0 <= i < |order| ==>
      Routes(objectsFolder, destinationFolder, catalog, order)[i].Some? ==>
      Routes(objectsFolder, destinationFolder, catalog, order)[i].value.source in fs.files && ValidPath(Routes(objectsFolder, destinationFolder, catalog, order)[i].value.destination)
    ensures (forall i :: 0 <= i < |order| ==> Routes(objectsFolder, destinationFolder, catalog, order)[i].Some?) ==>
      second == first && |secondResults| == |order| && forall i :: 0 <= i < |order| ==> secondResults[i].Failed?
  {
    var routes, firstResults, firstCompleted;
    routes, first, firstResults, firstCompleted := CopyAssets(fs, objectsFolder, destinationFolder, catalog, order, faults);
    if firstCompleted {
      forall i | 0 <= i < |routes| ensures Runnable(fs, routes, faults, i) {
        assert routes[i] == RouteOf(objectsFolder, destinationFolder, catalog, order[i]);
      }
      ReplayLeavesAllTaken(fs, routes, faults);
      assert AllTaken(first, routes);
    }
    var secondRoutes, secondCompleted;
    secondRoutes, second, secondResults, secondCompleted := CopyAssets(first, objectsFolder, destinationFolder, catalog, order, secondFaults);
  }

  /**
   A name with exactly two segments gets the empty file name, so its
   destination is the output folder itself and, something existing there,
   the copy always fails without touching anything.
   */
  lemma TwoSegmentNameNeverCopies(fs: FileSystem, source: string, destinationFolder: string, name: string, fault: Fault)
    requires |Split(name, '/')| == 2
    requires fs.Exists(destinationFolder)
    ensures DestinationPath(destinationFolder, name) == destinationFolder
    ensures CopyFile(fs, source, DestinationPath(destinationFolder, name), fault) == Copy(fs, Failed)
  {
  }

  /**
   For a catalog the loader built, every catalogued name has the two segments
   the file name needs, so an entry fails to resolve exactly when its hash is
   shorter than two characters or its source path holds a NUL; with a
   NUL-free store folder, exactly when the hash is short or holds a NUL.
   */
  lemma LoadedCatalogResolves(indexesFolderExists: bool, docs: seq<IndexDocument>, state: MenuState,
                              objectsFolder: string, destinationFolder: string)
    requires LoadIndexes(indexesFolderExists, docs, state).Loaded?
    ensures var catalog := LoadIndexes(indexesFolderExists, docs, state).catalog;
      forall k :: k in catalog ==>
        (RouteOf(objectsFolder, destinationFolder, catalog, k).Some? <==>
          |catalog[k]| >= 2 && ValidPath(SourcePath(objectsFolder, catalog[k])))
    ensures var catalog := LoadIndexes(indexesFolderExists, docs, state).catalog;
      ValidPath(objectsFolder) ==>
      forall k :: k in catalog ==>
        (RouteOf(objectsFolder, destinationFolder, catalog, k).Some? <==> |catalog[k]| >= 2 && ValidPath(catalog[k]))
  {
    LoadedNamesHaveTwoSegments(indexesFolderExists, docs, state);
  }
}

=== FILE: filter.dfy ===
/**
 The category filter applied to every indexed asset name: a name is kept when
 a selected category's marker occurs in it as a plain substring, anywhere,
 not necessarily as whole path segments.
 */
module AssetFilter {
  import opened Strings
  import opened Menu

  const MusicMarker: string := "sounds/music"
  const MobMarker: string := "sounds/mob"

  /** The asset name belongs to a category the user selected. */
  predicate Matches(name: string, state: MenuState) {
    || (state.copyMusic && Contains(name, MusicMarker))
    || (state.copyMobSounds && Contains(name, MobMarker))
  }

  /** Matching, restated as "a selected marker occurs at some index of the name". */
  lemma MatchesIffOccurs(name: string, state: MenuState)
    ensures Matches(name, state) <==>
      || (state.copyMusic && exists i :: OccursAt(name, MusicMarker, i))
      || (state.copyMobSounds && exists i :: OccursAt(name, MobMarker, i))
  {
    ContainsIffOccurs(name, MusicMarker);
    ContainsIffOccurs(name, MobMarker);
  }

  /** Every kept name contains a '/', so it splits into at least two segments. */
  lemma MatchedNameHasTwoSegments(name: string, state: MenuState)
    requires Matches(name, state)
    ensures '/' in name
    ensures |Split(name, '/')| >= 2
  {
    if state.copyMusic && Contains(name, MusicMarker) {
      ContainsCharOf(name, MusicMarker, 6);
    } else {
      ContainsCharOf(name, MobMarker, 6);
    }
    SplitManyIffSeparator(name, '/');
  }

  /** The marker need not end a segment: "sounds/mob" is found inside "sounds/mobility". */
  lemma MarkerMatchesInsideSegment()
    ensures Matches("minecraft/sounds/mobility.ogg", MenuState(false, true))
  {
    var name := "minecraft/sounds/mobility.ogg";
    assert name[10..20] == MobMarker;
    assert OccursAt(name, MobMarker, 10);
    ContainsIffOccurs(name, MobMarker);
  }
}

=== FILE: menu.dfy ===
/**
 The options menu: a cursor over the menu items and the two category flags the
 cursor toggles. The flags are the ones the program reads as `CopyMusic` and
 `CopyMobSounds`.
 */
module Menu {
  import opened Wrappers
  import opened Strings

  /** Number of selectable menu items. */
  const MenuItems: int := 2

  /** Which asset categories the user asked to extract. */
  datatype MenuState = MenuState(copyMusic: bool, copyMobSounds: bool)

  /** The load may start only when at least one category is selected. */
  predicate HasSelection(state: MenuState) {
    state.copyMusic || state.copyMobSounds
  }

  /**
   The state the menu opens with. Without an `options` setting only music is
   selected; with one, each category is selected when the setting mentions it
   (`music`, `mobs`) anywhere as a substring.
   */
  function InitialMenuState(options: Option<string>): (state: MenuState)
    ensures options.None? ==> state == MenuState(true, false) && HasSelection(state)
    ensures options.Some? ==> (state.copyMusic <==> Contains(options.value, "music"))
    ensures options.Some? ==> (state.copyMobSounds <==> Contains(options.value, "mobs"))
    ensures HasSelection(state) <==>
      options.None? || Contains(options.value, "music") || Contains(options.value, "mobs")
  {
    match options
    case None => MenuState(true, false)
    case Some(setting) => MenuState(Contains(setting, "music"), Contains(setting, "mobs"))
  }

  /** Up arrow: step back one item, wrapping from the first item to the last. */
  function MoveSelectionUp(index: int): (r: int)
    ensures 0 <= index < MenuItems ==> 0 <= r < MenuItems
    ensures 0 <= index < MenuItems ==> r == (index + MenuItems - 1) % MenuItems
    ensures 0 <= index < MenuItems ==> r != index
  {
    var i := index - 1;
    if i < 0 then MenuItems - 1 else i
  }

  /** Down arrow: step forward one item, wrapping from the last item to the first. */
  function MoveSelectionDown(index: int): (r: int)
    ensures 0 <= index < MenuItems ==> 0 <= r < MenuItems
    ensures 0 <= index < MenuItems ==> r == (index + 1) % MenuItems
    ensures 0 <= index < MenuItems ==> MoveSelectionUp(r) == index
  {
    var i := index + 1;
    if i > MenuItems - 1 then 0 else i
  }

  /** Space bar: flip the flag under the cursor; any other index changes nothing. */
  function SetSelection(state: MenuState, index: int): (r: MenuState)
    ensures index == 0 ==> r.copyMusic == !state.copyMusic && r.copyMobSounds == state.copyMobSounds
    ensures index == 1 ==> r.copyMobSounds == !state.copyMobSounds && r.copyMusic == state.copyMusic
    ensures index != 0 && index != 1 ==> r == state
  {
    match index
    case 0 => state.(copyMusic := !state.copyMusic)
    case 1 => state.(copyMobSounds := !state.copyMobSounds)
    case _ => state
  }

  /** Down undoes Up, the converse of the inverse stated on MoveSelectionDown. */
  lemma DownUndoesUp(index: int)
    requires 0 <= index < MenuItems
    ensures MoveSelectionDown(MoveSelectionUp(index)) == index
  {
  }

  /** Toggling the same item twice restores the menu state. */
  lemma SetSelectionTwiceRestores(state: MenuState, index: int)
    ensures SetSelection(SetSelection(state, index), index) == state
  {
  }

  /** Any walk of Up and Down presses started inside the menu stays inside it. */
  lemma {:induction false} CursorStaysInMenu(index: int, downPresses: seq<bool>)
    requires 0 <= index < MenuItems
    ensures 0 <= Walk(index, downPresses) < MenuItems
    decreases |downPresses|
  {
    if |downPresses| > 0 {
      var next := if downPresses[0] then MoveSelectionDown(index) else MoveSelectionUp(index);
      CursorStaysInMenu(next, downPresses[1..]);
    }
  }

  /** The cursor after a series of presses: `true` is Down, `false` is Up. */
  function Walk(index: int, downPresses: seq<bool>): int
    decreases |downPresses|
  {
    if |downPresses| == 0 then index
    else
      var next := if downPresses[0] then MoveSelectionDown(index) else MoveSelectionUp(index);
      Walk(next, downPresses[1..])
  }
}

=== FILE: resolver.dfy ===
/**
 Where a catalogued asset is read from and written to. The store is content
 addressed: an object lives at `<objects>/<first two characters of hash>/<hash>`.
 The output name drops the first two '/'-segments of the asset name and joins
 the rest with '-'. Paths are combined as .NET's Path.Combine does on Unix.
 */
module AssetResolver {
  import opened Wrappers
  import opened Strings

  /** Path.Combine(a, b) with '/' as the only separator: empty parts vanish, a rooted `b` wins. */
  function Combine(a: string, b: string): (r: string)
    ensures |b| == 0 ==> r == a
    ensures |b| > 0 && |a| == 0 ==> r == b
    ensures |b| > 0 && b[0] == '/' ==> r == b
    ensures |a| > 0 && a[|a| - 1] == '/' && |b| > 0 && b[0] != '/' ==> r == a + b
    ensures |a| > 0 && a[|a| - 1] != '/' && |b| > 0 && b[0] != '/' ==> r == a + "/" + b
    ensures |b| <= |r| && r[|r| - |b|..] == b
    ensures forall k :: 0 <= k < |r| ==> r[k] in a || r[k] in b || r[k] == '/'
  {
    if |b| == 0 then a
    else if |a| == 0 then b
    else if b[0] == '/' then b
    else if a[|a| - 1] == '/' then a + b
    else a + "/" + b
  }

  /** The object store below the game directory. */
  function ObjectsFolder(minecraftDir: string): string {
    Combine(Combine(minecraftDir, "assets"), "objects")
  }

  /** The store sub-directory of a hash: its first two characters. */
  function Shard(hash: string): string
    requires |hash| >= 2
  {
    hash[..2]
  }

  /** Where the object with this hash is stored. */
  function SourcePath(objectsFolder: string, hash: string): string
    requires |hash| >= 2
  {
    Combine(Combine(objectsFolder, Shard(hash)), hash)
  }

  /** The output file name: segments from the third on, joined with '-'. */
  function FileName(name: string): (fileName: string)
    requires |Split(name, '/')| >= 2
    ensures '/' !in fileName
    ensures |Split(name, '/')| == 2 ==> fileName == ""
  {
    var parts := Split(name, '/');
    JoinAvoids(parts[2..], "-", '/');
    Join(parts[2..], "-")
  }

  /** Where the asset is written. */
  function DestinationPath(destinationFolder: string, name: string): string
    requires |Split(name, '/')| >= 2
  {
    Combine(destinationFolder, FileName(name))
  }

  datatype Route = Route(source: string, destination: string)

  /** .NET rejects a path holding a NUL character whenever it makes the path absolute. */
  predicate ValidPath(path: string) {
    '\0' !in path
  }

  /**
   A NUL in the hash always reaches the source path, which ends with the hash;
   a NUL-free store folder and hash give a NUL-free source path.
   */
  lemma SourcePathValid(objectsFolder: string, hash: string)
    requires |hash| >= 2
    ensures '\0' in hash ==> !ValidPath(SourcePath(objectsFolder, hash))
    ensures ValidPath(objectsFolder) && ValidPath(hash) ==> ValidPath(SourcePath(objectsFolder, hash))
  {
    var shard := Shard(hash);
    var folder := Combine(objectsFolder, shard);
    var path := Combine(folder, hash);
    if '\0' in hash {
      var k :| 0 <= k < |hash| && hash[k] == '\0';
      assert path[|path| - |hash| + k] == '\0';
    }
    if ValidPath(objectsFolder) && ValidPath(hash) {
      assert ValidPath(shard);
      assert ValidPath(folder);
    }
  }

  /**
   Resolves one catalog entry. `None` is the exception the program raises
   when the hash is shorter than two characters (taking its first two), when
   the source path holds a NUL (building the `FileInfo` for it), or when the
   name has fewer than two segments (dropping the first two).
   */
  function Resolve(objectsFolder: string, destinationFolder: string, name: string, hash: string): (r: Option<Route>)
    ensures r.Some? <==> |hash| >= 2 && ValidPath(SourcePath(objectsFolder, hash)) && |Split(name, '/')| >= 2
    ensures r.Some? ==> r.value.source == SourcePath(objectsFolder, hash)
    ensures r.Some? ==> r.value.destination == DestinationPath(destinationFolder, name)
    ensures '\0' in hash ==> r.None?
    ensures ValidPath(objectsFolder) && ValidPath(hash) ==>
      (r.Some? <==> |hash| >= 2 && |Split(name, '/')| >= 2)
  {
    if |hash| < 2 then None
    else
      SourcePathValid(objectsFolder, hash);
      if !ValidPath(SourcePath(objectsFolder, hash)) then None
      else if |Split(name, '/')| < 2 then None
      else Some(Route(SourcePath(objectsFolder, hash), DestinationPath(destinationFolder, name)))
  }

  // ---------------------------------------------------------------------------
  // Properties

  /** Below an ordinary game directory the store is `<dir>/assets/objects`. */
  lemma ObjectsFolderLayout(minecraftDir: string)
    requires |minecraftDir| > 0 && minecraftDir[|minecraftDir| - 1] != '/'
    ensures ObjectsFolder(minecraftDir) == minecraftDir + "/assets/objects"
  {
    var assets := minecraftDir + "/" + "assets";
    assert Combine(minecraftDir, "assets") == assets;
    assert assets[|assets| - 1] == 's';
    assert Combine(assets, "objects") == assets + "/" + "objects";
  }

  /**
   For an ordinary store folder and a hash without '/', the source path is
   `<objects>/<shard>/<hash>`.
   */
  lemma SourcePathLayout(objectsFolder: string, hash: string)
    requires |objectsFolder| > 0 && objectsFolder[|objectsFolder| - 1] != '/'
    requires |hash| >= 2 && '/' !in hash
    ensures SourcePath(objectsFolder, hash) == objectsFolder + "/" + hash[..2] + "/" + hash
  {
    var shard := hash[..2];
    var folder := objectsFolder + "/" + shard;
    assert '/' !in shard by {
      forall k | 0 <= k < 2 ensures shard[k] != '/' {
        assert shard[k] == hash[k];
      }
    }
    assert Combine(objectsFolder, shard) == folder;
    assert folder[|folder| - 1] == hash[1];
    assert hash[0] != '/';
    assert SourcePath(objectsFolder, hash) == folder + "/" + hash;
  }

  /** Under the same conditions the source path's segments are the folder's, then the shard, then the hash. */
  lemma SourcePathSegments(objectsFolder: string, hash: string)
    requires |objectsFolder| > 0 && objectsFolder[|objectsFolder| - 1] != '/'
    requires |hash| >= 2 && '/' !in hash
    ensures Split(SourcePath(objectsFolder, hash), '/') == Split(objectsFolder, '/') + [hash[..2], hash]
  {
    SourcePathLayout(objectsFolder, hash);
    var shard := hash[..2];
    assert '/' !in shard by {
      forall k | 0 <= k < 2 ensures shard[k] != '/' {
        assert shard[k] == hash[k];
      }
    }
    SplitThenTwo(objectsFolder, shard, hash, '/');
  }

  /**
   For a name without '-' and with at least three segments, splitting the
   output name on '-' recovers exactly the segments after the first two.
   */
  lemma FileNameSegments(name: string)
    requires '-' !in name
    requires |Split(name, '/')| >= 3
    ensures Split(FileName(name), '-') == Split(name, '/')[2..]
  {
    var parts := Split(name, '/');
    SplitPiecesAvoid(name, '/', '-');
    SplitJoin(parts[2..], '-');
  }

  /** A name built from '/'-free segments gets those segments after the second, joined by '-'. */
  lemma FileNameOfSegments(segments: seq<string>)
    requires |segments| >= 2
    requires forall i :: 0 <= i < |segments| ==> '/' !in segments[i]
    ensures Split(Join(segments, "/"), '/') == segments
    ensures FileName(Join(segments, "/")) == Join(segments[2..], "-")
  {
    SplitJoin(segments, '/');
  }

  /**
   The naming is not injective: a '-' inside the last segment and a '/' in its
   place give two different asset names with the same output file name, so the
   later of the two to be copied finds its destination taken.
   */
  lemma FileNameCollision(front: seq<string>, a: string, b: string)
    requires |front| >= 2
    requires forall i :: 0 <= i < |front| ==> '/' !in front[i]
    requires '/' !in a && '/' !in b
    ensures Join(front + [a + "-" + b], "/") != Join(front + [a, b], "/")
    ensures |Split(Join(front + [a + "-" + b], "/"), '/')| >= 2
    ensures |Split(Join(front + [a, b], "/"), '/')| >= 2
    ensures FileName(Join(front + [a + "-" + b], "/")) == FileName(Join(front + [a, b], "/"))
  {
    var last := a + "-" + b;
    assert '/' !in last;
    var dashed := front + [last];
    var nested := front + [a, b];
    FileNameOfSegments(dashed);
    FileNameOfSegments(nested);
    assert |dashed| != |nested|;
    var rest := front[2..];
    assert dashed[2..] == rest + [last];
    assert nested[2..] == (rest + [a]) + [b];
    if |rest| == 0 {
      assert Join(rest + [a], "-") == a;
      JoinSnoc(rest + [a], b, "-");
    } else {
      JoinSnoc(rest, last, "-");
      JoinSnoc(rest, a, "-");
      JoinSnoc(rest + [a], b, "-");
    }
  }
}

=== FILE: strings.dfy ===
/**
 This module defines the three string operations the extractor relies on, with
 the .NET semantics it uses: ordinal substring containment (`String.Contains`),
 splitting at every occurrence of one character keeping empty pieces
 (`String.Split(char)`), and joining with a separator (`String.Join`).
 */
module Strings {

  /** Ordinal substring test: `sub` occurs somewhere in `s`. */
  predicate Contains(s: string, sub: string)
    decreases |s|
  {
    sub <= s || (|s| > 0 && Contains(s[1..], sub))
  }

  /** `sub` occurs in `s` starting at index `i`. */
  predicate OccursAt(s: string, sub: string, i: int) {
    0 <= i && i + |sub| <= |s| && s[i..i + |sub|] == sub
  }

  /** Concatenates `parts`, putting `sep` between neighbours. */
  function Join(parts: seq<string>, sep: string): string
    decreases |parts|
  {
    if |parts| == 0 then ""
    else if |parts| == 1 then parts[0]
    else parts[0] + sep + Join(parts[1..], sep)
  }

  /** The pieces of `s` between occurrences of `sep`, empty pieces included. */
  function Split(s: string, sep: char): (parts: seq<string>)
    ensures |parts| >= 1
    ensures forall i :: 0 <= i < |parts| ==> sep !in parts[i]
    decreases |s|
  {
    if |s| == 0 then [""]
    else
      var rest := Split(s[1..], sep);
      if s[0] == sep then [""] + rest
      else [[s[0]] + rest[0]] + rest[1..]
  }

  /** Join undoes Split: rejoining the pieces with the separator gives back the string. */
  lemma {:induction false} JoinSplit(s: string, sep: char)
    ensures Join(Split(s, sep), [sep]) == s
    decreases |s|
  {
    if |s| > 0 {
      var rest := Split(s[1..], sep);
      JoinSplit(s[1..], sep);
      assert s == [s[0]] + s[1..];
      if s[0] == sep {
        var parts := [""] + rest;
        assert parts[1..] == rest;
      } else {
        var parts := [[s[0]] + rest[0]] + rest[1..];
        assert parts[1..] == rest[1..];
        if |rest| > 1 {
          assert Join(rest, [sep]) == rest[0] + [sep] + Join(rest[1..], [sep]);
        }
      }
    }
  }

  /** A match found by the recursive test sits at some index. */
  lemma {:induction false} ContainsHasOccurrence(s: string, sub: string)
    requires Contains(s, sub)
    ensures exists i :: OccursAt(s, sub, i)
    decreases |s|
  {
    if sub <= s {
      assert s[0..|sub|] == sub;
      assert OccursAt(s, sub, 0);
    } else {
      ContainsHasOccurrence(s[1..], sub);
      var j :| OccursAt(s[1..], sub, j);
      assert s[1..][j..j + |sub|] == s[j + 1..j + 1 + |sub|];
      assert OccursAt(s, sub, j + 1);
    }
  }

  /** An occurrence at any index is found by the recursive test. */
  lemma {:induction false} OccurrenceIsContained(s: string, sub: string, i: int)
    requires OccursAt(s, sub, i)
    ensures Contains(s, sub)
    decreases i
  {
    if i == 0 {
      assert s[..|sub|] == sub;
    } else {
      assert s[1..][i - 1..i - 1 + |sub|] == s[i..i + |sub|];
      OccurrenceIsContained(s[1..], sub, i - 1);
    }
  }

  /** The recursive containment test agrees with "occurs at some index". */
  lemma ContainsIffOccurs(s: string, sub: string)
    ensures Contains(s, sub) <==> exists i :: OccursAt(s, sub, i)
  {
    if Contains(s, sub) {
      ContainsHasOccurrence(s, sub);
    }
    if exists i :: OccursAt(s, sub, i) {
      var i :| OccursAt(s, sub, i);
      OccurrenceIsContained(s, sub, i);
    }
  }

  /** Every character of a containing string's match is a character of the string. */
  lemma ContainsCharOf(s: string, sub: string, k: nat)
    requires Contains(s, sub)
    requires k < |sub|
    ensures sub[k] in s
  {
    ContainsIffOccurs(s, sub);
    var i :| OccursAt(s, sub, i);
    assert s[i + k] == s[i..i + |sub|][k];
  }

  /** Split of a string that starts with the separator. */
  lemma SplitConsSeparator(t: string, sep: char)
    ensures Split([sep] + t, sep) == [""] + Split(t, sep)
  {
    assert ([sep] + t)[1..] == t;
  }

  /** Split of a string that starts with another character: it joins the first piece. */
  lemma SplitConsOther(c: char, t: string, sep: char)
    requires c != sep
    ensures Split([c] + t, sep) == [[c] + Split(t, sep)[0]] + Split(t, sep)[1..]
  {
    assert ([c] + t)[1..] == t;
  }

  /** Splitting distributes over a separator between two strings. */
  lemma {:induction false} SplitAround(a: string, b: string, sep: char)
    ensures Split(a + [sep] + b, sep) == Split(a, sep) + Split(b, sep)
    decreases |a|
  {
    if |a| == 0 {
      assert a + [sep] + b == [sep] + b;
      SplitConsSeparator(b, sep);
    } else {
      var a' := a[1..];
      var t := a' + [sep] + b;
      assert a == [a[0]] + a';
      assert a + [sep] + b == [a[0]] + t;
      SplitAround(a', b, sep);
      if a[0] == sep {
        SplitAroundStepSeparator(a', Split(b, sep), t, sep);
      } else {
        SplitAroundStepOther(a[0], a', Split(b, sep), t, sep);
      }
    }
  }

  /** The inductive step of SplitAround when `a` starts with the separator. */
  lemma SplitAroundStepSeparator(a': string, rb: seq<string>, t: string, sep: char)
    requires Split(t, sep) == Split(a', sep) + rb
    ensures Split([sep] + t, sep) == Split([sep] + a', sep) + rb
  {
    var ra := Split(a', sep);
    SplitConsSeparator(t, sep);
    SplitConsSeparator(a', sep);
    assert [""] + (ra + rb) == ([""] + ra) + rb;
  }

  /** The inductive step of SplitAround when `a` starts with another character. */
  lemma SplitAroundStepOther(c: char, a': string, rb: seq<string>, t: string, sep: char)
    requires c != sep
    requires Split(t, sep) == Split(a', sep) + rb
    ensures Split([c] + t, sep) == Split([c] + a', sep) + rb
  {
    var ra := Split(a', sep);
    SplitConsOther(c, t, sep);
    SplitConsOther(c, a', sep);
    var h := [c] + ra[0];
    assert (ra + rb)[0] == ra[0];
    assert (ra + rb)[1..] == ra[1..] + rb;
    assert [h] + (ra[1..] + rb) == ([h] + ra[1..]) + rb;
  }

  /** A string without the separator splits into itself alone. */
  lemma {:induction false} SplitWithoutSeparator(a: string, sep: char)
    requires sep !in a
    ensures Split(a, sep) == [a]
    decreases |a|
  {
    if |a| > 0 {
      SplitWithoutSeparator(a[1..], sep);
      assert a == [a[0]] + a[1..];
    }
  }

  /** A string followed by two separator-free pieces splits into its own pieces and those two. */
  lemma SplitThenTwo(x: string, y: string, z: string, sep: char)
    requires sep !in y && sep !in z
    ensures Split(x + [sep] + y + [sep] + z, sep) == Split(x, sep) + [y, z]
  {
    var xy := x + [sep] + y;
    SplitAround(x, y, sep);
    SplitWithoutSeparator(y, sep);
    SplitAround(xy, z, sep);
    SplitWithoutSeparator(z, sep);
    assert Split(xy, sep) + [z] == Split(x, sep) + [y, z];
  }

  /** Split undoes Join: a non-empty list of separator-free pieces comes back unchanged. */
  lemma {:induction false} SplitJoin(parts: seq<string>, sep: char)
    requires |parts| >= 1
    requires forall i :: 0 <= i < |parts| ==> sep !in parts[i]
    ensures Split(Join(parts, [sep]), sep) == parts
    decreases |parts|
  {
    if |parts| == 1 {
      SplitWithoutSeparator(parts[0], sep);
    } else {
      SplitJoin(parts[1..], sep);
      SplitAround(parts[0], Join(parts[1..], [sep]), sep);
      SplitWithoutSeparator(parts[0], sep);
      assert parts == [parts[0]] + parts[1..];
    }
  }

  /** A string splits into two or more pieces exactly when it holds the separator. */
  lemma SplitManyIffSeparator(s: string, sep: char)
    ensures |Split(s, sep)| >= 2 <==> sep in s
  {
    var parts := Split(s, sep);
    JoinSplit(s, sep);
    if |parts| == 1 {
      assert s == parts[0];
    } else {
      assert s == parts[0] + [sep] + Join(parts[1..], [sep]);
      assert s[|parts[0]|] == sep;
    }
  }

  /** A character absent from the string is absent from each of its pieces. */
  lemma {:induction false} SplitPiecesAvoid(s: string, sep: char, c: char)
    requires c !in s
    ensures forall i :: 0 <= i < |Split(s, sep)| ==> c !in Split(s, sep)[i]
    decreases |s|
  {
    if |s| > 0 {
      assert c !in s[1..] by {
        forall k | 0 <= k < |s| - 1 ensures s[1..][k] != c {
          assert s[1..][k] == s[k + 1];
        }
      }
      SplitPiecesAvoid(s[1..], sep, c);
    }
  }

  /** Appending one more piece appends the separator and that piece. */
  lemma {:induction false} JoinSnoc(parts: seq<string>, last: string, sep: string)
    requires |parts| >= 1
    ensures Join(parts + [last], sep) == Join(parts, sep) + sep + last
    decreases |parts|
  {
    assert (parts + [last])[0] == parts[0];
    assert (parts + [last])[1..] == parts[1..] + [last];
    if |parts| > 1 {
      JoinSnoc(parts[1..], last, sep);
    }
  }

  /** Joining pieces and a separator that all lack `c` gives a string without `c`. */
  lemma {:induction false} JoinAvoids(parts: seq<string>, sep: string, c: char)
    requires c !in sep
    requires forall i :: 0 <= i < |parts| ==> c !in parts[i]
    ensures c !in Join(parts, sep)
    decreases |parts|
  {
    if |parts| > 1 {
      JoinAvoids(parts[1..], sep, c);
    }
  }
}

=== FILE: wrappers.dfy ===
/** The optional-value datatype shared by the catalog and the resolver. */
module Wrappers {

  datatype Option<T> = None | Some(value: T) {

    /** This value if it is present, otherwise `other`. */
    function Or(other: Option<T>): Option<T> {
      if Some? then this else other
    }
  }
}
